=== FILE: README.md ===
# Mini tienda — a Dafny model of the shop window's cart logic

`mini_tienda.py` is a small PyQt5 shop window ("Mini Inventario - Tienda").
It keeps a dictionary of eight products with unit prices. A product list
shows each product as a `"name - $price"` label, and a search box filters
that list case-insensitively. The user picks a row and a quantity (a spin
box from 1 to 1000) and adds it to a cart. The cart keeps a list of
`(product, quantity, subtotal)` tuples and a running total. A selected cart
row can be removed, and a plain-text receipt can be generated.

This project models that logic as pure functions over immutable data:

- `Wrappers`: `Option` and `Result`.
- `Text`: Python's `in` on strings (`IsSubstring`), `str.split(sep)[0]`
  (`SplitFirst`), `str.lower()` (`Lower`), and `split`/`join` on line breaks.
- `Money`: prices as whole cents, and `f"{x:.2f}"` as `FormatCents`, with its
  parser `ParseCents` as the partner of the round trip.
- `Catalog`: the product dictionary, the labels, reading a name back from a
  label, and `buscar_producto` (`Search`).
- `Cart`: the parallel lists `carrito_items` (lines) and the cart widget's
  texts (entries), the total, `agregar_producto` (`Add`) and
  `eliminar_producto` (`Remove`).
- `Receipt`: `generar_recibo` (`ReceiptText`).
- `Shop`: the window as a state machine. Each handler that changes the
  window (search, add, delete) is one `Step`, and the invariant `Consistent`
  holds over every session of user actions. The price caption
  (`mostrar_precio_unitario`) and the receipt (`generar_recibo`) change no
  state; they are functions of the window (`PriceCaption`, `ReceiptText`).
  `Consistent` says five things:
  - the catalog is clean: no two products share a name, and every name
    reads back from its label and holds no line break;
  - the list shows exactly the search results;
  - the total is the sum of the subtotals;
  - each cart text is the text of its line;
  - every line is priced from the catalog.

## Model

| member | source | states |
|---|---|---|
| Text.IsSubstring | mini_tienda.py:111 | Python's `texto in s` holds exactly when the pattern occurs at some position of the string |
| Text.SplitFirst | mini_tienda.py:100 | `split(sep)[0]` is a prefix of the text. No separator starts inside it, and if it is shorter than the text then a separator starts right after it |
| Text.LowerChar | mini_tienda.py:108 | lower-casing a character never leaves an upper-case letter; it maps upper-case letters 32 code points up ('A' to 'a') and leaves every other character alone |
| Text.Lower | mini_tienda.py:108 | `str.lower()` keeps the length, lower-cases each character in place, and leaves no capital in the result |
| Text.LowerFixesLowerCase | mini_tienda.py:108 | a text is its own lower-case form exactly when it holds no capital |
| Text.LowerIdempotent | mini_tienda.py:108-111 | lower-casing an already lower-cased query or name changes nothing more |
| Text.Split | mini_tienda.py:154-158 | splitting on a line break gives at least one piece, and no piece contains a line break |
| Text.SplitJoin | mini_tienda.py:154-158 | splitting the join of line-break-free pieces gives those pieces back |
| Money.NatToString | mini_tienda.py:127 | `str(n)` for a natural number is a non-empty run of digits with no leading zero; it starts with '0' only for zero |
| Money.ParseNatToString | mini_tienda.py:127 | reading `str(n)` back as digits gives `n` |
| Money.FormatCents | mini_tienda.py:36 | `:.2f` of an amount in cents is digits, a point, and exactly two digits |
| Money.FormatCentsRoundTrip | mini_tienda.py:36 | parsing the `:.2f` text of an amount gives the amount back |
| Money.FormatCentsInjective | mini_tienda.py:36 | different amounts print differently |
| Money.FormatAmount | mini_tienda.py:158 | `:.2f` of a signed total is at least "d.dd" long, starts with a minus sign exactly when the total is negative, and has no other minus sign |
| Money.FormatAmountRoundTrip | mini_tienda.py:158 | parsing the printed total, negative or not, gives the total back |
| Money.FormatExamples | mini_tienda.py:22-23 | the catalog prices of bread and milk print as "0.50" and "1.20"; the totals of three breads, then two milks more, then the milks alone print as "1.50", "3.90" and "2.40" |
| Catalog.Lookup | mini_tienda.py:122 | `self.productos[name]` finds an entry with that name and returns its price; it returns None (Python's KeyError) only when no entry has that name |
| Catalog.LookupMember | mini_tienda.py:21-30 | in a dictionary (distinct names), every listed product is found under its name, at its own price |
| Catalog.Label | mini_tienda.py:36 | the label starts with the name and " - $", and the text after that reads back as the product's price |
| Catalog.LabelName | mini_tienda.py:121 | `split(" - ")[0]` of a label is a prefix of it with no " - " inside. When it is shorter than the text, a " - " starts right after it, so it ends at the first " - ". It is the whole text when that holds no " - " |
| Catalog.Labels | mini_tienda.py:35-36 | the list gets one label per entry, in dictionary order, and reading each label back gives its entry's name whenever that name is parsable |
| Catalog.LabelRoundTrip | mini_tienda.py:121 | reading the name back (line 121) from the label built on line 36 gives the product's name, for any name without " - " that does not end in " -" |
| Catalog.SplitBeforeSep | mini_tienda.py:121 | splitting `name + " - " + rest` on the first " - " gives `name`, whatever `rest` holds |
| Catalog.DashEndingLost | mini_tienda.py:121 | a name that ends in " -" reads back without that ending, so the round trip's suffix condition is needed |
| Catalog.LabelRoundTripNeedsSuffixCondition | mini_tienda.py:121 | "Pan -" holds no " - ", yet its label reads back as "Pan" |
| Catalog.NoHyphenParsable | mini_tienda.py:21-30 | a name without a hyphen survives the label round trip |
| Catalog.InventoryWellFormed | mini_tienda.py:21-30 | the eight starting products have distinct names |
| Catalog.InventoryPlainNames | mini_tienda.py:21-30 | no starting product name contains a hyphen or a line break |
| Catalog.InventoryGoodNames | mini_tienda.py:21-30 | every starting product name survives the label round trip and prints on one receipt line |
| Catalog.Matches | mini_tienda.py:111 | the empty query matches every product, and a query longer than a name never matches it |
| Catalog.Search | mini_tienda.py:106-112 | a product is listed exactly when it is in the catalog and its lower-cased name contains the lower-cased query; the list is never longer than the catalog |
| Catalog.SearchKeepsOrder | mini_tienda.py:110-112 | the results come in catalog order, and in a dictionary no name appears twice |
| Catalog.SearchEmptyQuery | mini_tienda.py:108-112 | an empty search box lists the whole catalog, in order |
| Catalog.SearchCaseInsensitive | mini_tienda.py:108-111 | two queries with the same lower-case form list the same entries |
| Catalog.SearchNoMatch | mini_tienda.py:109-112 | a query that matches no product leaves the list empty |
| Catalog.SearchIgnoresCaseExample | mini_tienda.py:108-111 | "pan" and "PAN" both find "Pan" |
| Cart.SumConcat | mini_tienda.py:131 | the subtotals of two runs of lines sum to the sum of each run |
| Cart.Empty | mini_tienda.py:86-87 | the window starts with no lines, no cart texts and a total of 0, which is valid |
| Cart.LineText | mini_tienda.py:127 | a cart text or receipt line is the product name, " x", a run of digits that reads back as the quantity, the separator, and a price text that reads back as the subtotal. It is one line when neither the name nor the separator holds a line break |
| Cart.EntryText | mini_tienda.py:127 | the cart widget's text for a line is the product name, " x", digits that read back as the quantity, " - $", and a price text that reads back as the subtotal. It is one row when the name has no line break |
| Cart.Add | mini_tienda.py:122-131 | adding appends exactly one line `(product, quantity, price × quantity)` and leaves the earlier lines alone. The total grows by that subtotal, and a valid cart stays valid, with total = sum of subtotals |
| Cart.Without | mini_tienda.py:141-143 | `pop(idx)` / `takeItem(idx)` drop exactly element `idx` and shift the later ones down by one |
| Cart.WithoutKeepsValid | mini_tienda.py:141-143 | dropping the same row from the lines and the texts, and its subtotal from the total, keeps the cart valid |
| Cart.Remove | mini_tienda.py:137-146 | with no row selected (-1) the cart is refused with the "select a cart product" warning. Otherwise exactly the selected line is removed, the others keep their order, and the total drops by its subtotal; for a valid cart this always succeeds and stays valid |
| Cart.RemoveSum | mini_tienda.py:141-142 | taking line `i` out lowers the sum of subtotals by exactly that line's subtotal |
| Cart.BreadAndMilkScenario | mini_tienda.py:114-146 | three breads then two milks give totals 1.50 and 3.90; deleting row 0 leaves only the milk line and a total of 2.40 |
| Receipt.ItemLine | mini_tienda.py:156 | a receipt line is the product name, " x", digits that read back as the quantity, " = $", and a price text that reads back as the subtotal. It is a single line when the name has no line break |
| Receipt.ItemLineMirrorsEntry | mini_tienda.py:156 | each receipt line is the cart widget's text for that line (line 127), of the same length and identical except for '=' in place of '-' |
| Receipt.TotalLine | mini_tienda.py:158 | the total line starts with "TOTAL A PAGAR: $", is a single line, and its amount reads back as the total |
| Receipt.Items | mini_tienda.py:155-156 | the loop writes nothing exactly for an empty cart, and otherwise its output ends with a line break |
| Receipt.ReceiptText | mini_tienda.py:148-158 | the receipt is refused (`EmptyCart`) exactly when the cart has no lines; otherwise it starts with the "RECIBO DE COMPRA" header |
| Receipt.ItemLines | mini_tienda.py:155-156 | one receipt line per cart line, in order, and none of them breaks when no product name holds a line break |
| Receipt.ItemsThenJoin | mini_tienda.py:155-157 | the loop's "line + newline" output followed by more lines is the newline join of all of them |
| Receipt.ReceiptIsJoin | mini_tienda.py:154-158 | the receipt is the newline join of header, blank line, "Items:", the item lines, the rule and the total line |
| Receipt.ReceiptParts | mini_tienda.py:154-158 | the receipt has five fixed lines besides the item lines |
| Receipt.ReceiptByLine | mini_tienda.py:154-158 | read line by line, the receipt is header, blank line, "Items:", one line per cart line in cart order, the rule and "TOTAL A PAGAR: $total" |
| Shop.Step | mini_tienda.py:106-146 | a step never touches the catalog. Typing always succeeds, keeps the cart, records the query and lists exactly the labels of the search results. Deleting a selected row of a valid cart always succeeds and leaves the cart that `Remove` gives. Add without a selected product is refused exactly when no row is selected, and so is delete without a selected cart row. Add and delete keep the list and the query |
| Shop.Start | mini_tienda.py:21-36 | the window opens on the eight-product dictionary, with an empty query and every product's label listed. It is consistent (a clean dictionary, the full catalog listed, a valid cart), with an empty cart and a zero total |
| Shop.OpenConsistent | mini_tienda.py:34-36 | any clean dictionary, listed in full with an empty query and an empty cart, is a consistent window |
| Shop.Next | mini_tienda.py:106-146 | an action never changes the catalog, a refused action changes nothing, and typing keeps the cart and records the query |
| Shop.ShownProduct | mini_tienda.py:116-122 | in a consistent window, the label in a list row reads back to the product it shows, and looking that name up gives that product's price (no KeyError) |
| Shop.AddSelectedProduct | mini_tienda.py:114-131 | in a consistent window, adding a listed row with a spin-box quantity always succeeds, and adds the row's product at its catalog price |
| Shop.AddFound | mini_tienda.py:121-131 | when a row's label reads back to a catalog name, adding it adds that product at its looked-up price |
| Shop.PricedAfterAdd | mini_tienda.py:122-128 | a line priced from the catalog keeps every cart line priced |
| Shop.PricedAfterRemove | mini_tienda.py:141 | removing a line keeps every remaining line priced |
| Shop.StepPreservesConsistent | mini_tienda.py:106-146 | every user action keeps the window consistent |
| Shop.RunPreservesConsistent | mini_tienda.py:124-142 | after any session of actions the window is still consistent; in particular the rounded running total equals the sum of the line subtotals |
| Shop.DeleteWithoutSelection | mini_tienda.py:139-146 | deleting with no cart row selected leaves the whole window unchanged |
| Shop.ShopReceipt | mini_tienda.py:148-158 | for a non-empty cart whose lines are priced from a clean catalog and whose total is the sum of the subtotals (as in every consistent window), the receipt read line by line lists every cart line in order and ends with that sum |
| Shop.PriceCaption | mini_tienda.py:97-104 | the caption starts with "Precio unitario: $" and its amount reads back as the price `dict.get` finds under the row's name, or 0 when no row is selected or the name is unknown |
| Shop.PriceCaptionShowsPrice | mini_tienda.py:97-104 | the unit-price caption shows the selected row's catalog price, and "$0.00" when no row is selected |
| Shop.CaptionFound | mini_tienda.py:99-102 | a row whose label reads back to a catalog name gets that product's price in the caption |
| Shop.CaptionWithoutSelection | mini_tienda.py:103-104 | with no row selected the caption reads "Precio unitario: $0.00" |

## Left out

- The PyQt5 widgets, layouts, window title, icon, message boxes and the `__main__` launcher: they are presentation and I/O. Each warning box becomes an `Error` value, and the widgets' current row and spin-box value become event parameters.
- Floating point: prices, subtotals and the total are whole cents, so `round(..., 2)` of a sum or a product of cent amounts is exact. The model does not reproduce binary floating-point rounding, and Python's round-half-to-even never comes into play for cent amounts.
- Text.LowerChar, Text.Lower: cover ASCII and the Latin-1 capitals À–Þ (except ×) only. That is enough for every catalog name, but not for every query. Python lower-cases characters outside that range too, for example U+212A KELVIN SIGN to 'k', so the one-character query "\u212A" lists "Arroz (1kg)" and "Azúcar (1kg)" in the program and nothing in the model. Full Unicode case mapping is not modelled.
- Resetting the spin box to 1 after an add (line 135) is left out: the quantity is a parameter of every add event.
- The texts of `total_label` (lines 132 and 144) and of `precio_unitario_label` are left out, except through `PriceCaption`. They are derived from the modelled total and price by `FormatAmount` / `FormatCents`.
- Shop.Enabled: the widgets never report a row past the end of their list, so that upper bound is a precondition. The program's own -1 "no selection" case is modelled.
- Cart.Remove: the precondition is only `row < |entries|`. If the two parallel lists ever disagreed, `pop` past the end of the lines would raise; that case is modelled as `RowOutOfRange` and never arises in a valid cart.
- Shop.AddSelectedProduct: states the new cart as `Cart.Add` applied to the row's product, and leaves the line-level facts to `Cart.Add`'s contract.
- Catalog.LabelRoundTrip: holds for names without " - " that also do not end in " -". Every name in the dictionary satisfies this, and the program has no way to add other names.
- Shop.RunPreservesConsistent: does not state how the cart's lines over a whole session relate to the sequence of add events. It states the invariant, and `Cart.Add` / `Cart.Remove` state each step.
- Shop.Next: `UnknownProduct` and `RowOutOfRange` stand for the uncaught KeyError (line 122) and IndexError (line 141), not for warning boxes. `Next` treats them like refusals and keeps the state, which matches the data: both exceptions are raised before anything changes. The model does not show how Qt reports an uncaught exception in a slot. Neither error can happen in a consistent window (`Shop.AddSelectedProduct`, `Cart.Remove`).
- Catalog editing, JSON persistence and clearing the cart do not exist in this program, so they are not modelled.

=== FILE: cart.dfy ===
/**
 * The shopping cart: the internal list of (product, quantity, subtotal)
 * lines, the parallel list of texts the cart widget shows, and the running
 * total, all money in cents.
 */
module Cart {
  import opened Wrappers
  import opened Money

  /** One purchase: `(producto, cantidad, subtotal)`. */
  datatype Line = Line(product: string, quantity: nat, subtotal: nat)

  /**
   * `carrito_items` (`lines`), the texts of the cart widget (`entries`) and
   * `self.total`. The total is a plain integer because removal subtracts from
   * it without any check; `Valid` is what keeps it equal to the sum.
   */
  datatype Cart = Cart(lines: seq<Line>, entries: seq<string>, total: int)

  /** Why a handler refused to act (a warning box or a Python exception in the program). */
  datatype Error =
    | NoProductSelected          // "Selecciona un producto primero."
    | UnknownProduct(name: string) // `self.productos[producto]` raises KeyError
    | NoCartSelection            // "Selecciona un producto del carrito para eliminar."
    | RowOutOfRange              // `carrito_items.pop(idx)` raises IndexError
    | EmptyCart                  // "El carrito está vacío."

  /** The range the quantity spin box allows. */
  const MinQuantity: int := 1
  const MaxQuantity: int := 1000

  predicate ValidQuantity(q: int) {
    MinQuantity <= q <= MaxQuantity
  }

  /** The sum of the subtotals of `lines`. */
  function Sum(lines: seq<Line>): nat
    decreases |lines|
  {
    if |lines| == 0 then 0 else Sum(lines[..|lines| - 1]) + lines[|lines| - 1].subtotal
  }

  /** The sum over a concatenation is the sum of the sums. */
  lemma {:induction false} SumConcat(a: seq<Line>, b: seq<Line>)
    ensures Sum(a + b) == Sum(a) + Sum(b)
    decreases |b|
  {
    if |b| == 0 {
      assert a + b == a;
    } else {
      assert (a + b)[..|a + b| - 1] == a + b[..|b| - 1];
      SumConcat(a, b[..|b| - 1]);
    }
  }

  /**
   * `f"{producto} x{cantidad}{mark}{subtotal:.2f}"`, the shape the cart
   * widget and the receipt both give a line: it starts with the product name
   * and is one line when neither the name nor the mark holds a line break.
   */
  function LineText(l: Line, mark: string): (r: string)
    ensures l.product + " x" <= r
    ensures exists q, m :: && AllDigits(q) && ParseNat(q) == l.quantity
                           && ParseCents(m) == Some(l.subtotal)
                           && r == l.product + " x" + q + mark + m
    ensures '\n' !in l.product && '\n' !in mark ==> '\n' !in r
  {
    var q, m := NatToString(l.quantity), FormatCents(l.subtotal);
    assert '\n' !in q && '\n' !in m;
    ParseNatToString(l.quantity);
    FormatCentsRoundTrip(l.subtotal);
    l.product + " x" + q + mark + m
  }

  /** The cart widget's text for a line: `LineText` with the mark " - $", its contract specialised. */
  function EntryText(l: Line): (r: string)
    ensures l.product + " x" <= r
    ensures exists q, m :: && AllDigits(q) && ParseNat(q) == l.quantity
                           && ParseCents(m) == Some(l.subtotal)
                           && r == l.product + " x" + q + " - $" + m
    ensures '\n' !in l.product ==> '\n' !in r
  {
    LineText(l, " - $")
  }

  /**
   * The cart invariant: the total is the sum of the subtotals, and the
   * widget shows exactly one text per line, in the same order.
   */
  predicate Valid(c: Cart) {
    && c.total == Sum(c.lines)
    && |c.entries| == |c.lines|
    && forall i :: 0 <= i < |c.lines| ==> c.entries[i] == EntryText(c.lines[i])
  }

  /** The cart at start-up: `self.total = 0.0`, `self.carrito_items = []`. */
  function Empty(): (c: Cart)
    ensures Valid(c)
    ensures |c.lines| == 0 && c.total == 0
  {
    Cart([], [], 0)
  }

  /**
   * The cart part of `agregar_producto`: one new line at the end, priced at
   * `unitPrice * quantity`; earlier lines are untouched and the total grows
   * by exactly the new subtotal.
   */
  function Add(c: Cart, product: string, unitPrice: nat, quantity: int): (r: Cart)
    requires ValidQuantity(quantity)
    ensures |r.lines| == |c.lines| + 1
    ensures r.lines[..|c.lines|] == c.lines
    ensures r.lines[|c.lines|] == Line(product, quantity, unitPrice * quantity)
    ensures r.total == c.total + unitPrice * quantity
    ensures Valid(c) ==> Valid(r) && r.total == Sum(r.lines)
  {
    var line := Line(product, quantity, unitPrice * quantity);
    var r := Cart(c.lines + [line], c.entries + [EntryText(line)], c.total + line.subtotal);
    assert r.lines[..|c.lines|] == c.lines;
    r
  }

  /** `s` without its element at index `i`, the others kept in order (Python's `list.pop(i)`). */
  function Without<T>(s: seq<T>, i: nat): (r: seq<T>)
    requires i < |s|
    ensures |r| == |s| - 1
    ensures forall j :: 0 <= j < i ==> r[j] == s[j]
    ensures forall j :: i <= j < |r| ==> r[j] == s[j + 1]
  {
    s[..i] + s[i + 1..]
  }

  /** Dropping the same row from the lines and from the texts keeps a valid cart valid. */
  lemma WithoutKeepsValid(c: Cart, row: nat)
    requires Valid(c) && row < |c.lines|
    ensures Valid(Cart(Without(c.lines, row), Without(c.entries, row), c.total - c.lines[row].subtotal))
  {
    RemoveSum(c.lines, row);
  }

  /**
   * `eliminar_producto` for the selected row of the cart widget (-1 when
   * nothing is selected): removes exactly that line and its text, keeps the
   * others in order, and takes the line's subtotal off the total.
   */
  function Remove(c: Cart, row: int): (r: Result<Cart, Error>)
    requires row < |c.entries|
    ensures row < 0 <==> r == Failure(NoCartSelection)
    ensures 0 <= row && Valid(c) ==> r.Success?
    ensures r.Success? ==> 0 <= row < |c.lines|
    ensures r.Success? ==> |r.value.lines| == |c.lines| - 1
    ensures r.Success? ==> forall j :: 0 <= j < row ==> r.value.lines[j] == c.lines[j]
    ensures r.Success? ==> forall j :: row <= j < |r.value.lines| ==> r.value.lines[j] == c.lines[j + 1]
    ensures r.Success? ==> r.value.total == c.total - c.lines[row].subtotal
    ensures r.Success? && Valid(c) ==> Valid(r.value)
  {
    if row < 0 then Failure(NoCartSelection)
    else if row >= |c.lines| then Failure(RowOutOfRange)
    else
      var r := Cart(Without(c.lines, row), Without(c.entries, row), c.total - c.lines[row].subtotal);
      if Valid(c) then WithoutKeepsValid(c, row); Success(r) else Success(r)
  }

  /** Taking line `i` out lowers the sum by that line's subtotal. */
  lemma RemoveSum(lines: seq<Line>, i: nat)
    requires i < |lines|
    ensures Sum(Without(lines, i)) == Sum(lines) - lines[i].subtotal
  {
    var before, x, after := lines[..i], lines[i], lines[i + 1..];
    assert lines == before + lines[i..];
    SumConcat(before, lines[i..]);
    DropCons(lines, i);
    SumConcat([x], after);
    SumSingle(x);
    SumConcat(before, after);
  }

  /** The suffix from `i` is element `i` followed by the suffix after it. */
  lemma DropCons<T>(s: seq<T>, i: nat)
    requires i < |s|
    ensures s[i..] == [s[i]] + s[i + 1..]
  {
  }

  /** A single line sums to its own subtotal. */
  lemma SumSingle(x: Line)
    ensures Sum([x]) == x.subtotal
  {
    assert [x][..0] == [];
  }

  /**
   * The worked example: bread at 0.50 three times, milk at 1.20 twice,
   * then the first line removed.
   */
  lemma BreadAndMilkScenario()
    ensures Add(Empty(), "Pan", 50, 3).total == 150
    ensures Add(Add(Empty(), "Pan", 50, 3), "Leche", 120, 2).total == 390
    ensures Remove(Add(Add(Empty(), "Pan", 50, 3), "Leche", 120, 2), 0)
            == Success(Cart([Line("Leche", 2, 240)], [EntryText(Line("Leche", 2, 240))], 240))
  {
    var c2 := Add(Add(Empty(), "Pan", 50, 3), "Leche", 120, 2);
    var r := Remove(c2, 0);
    assert r.value.lines == [Line("Leche", 2, 240)];
    assert r.value.entries == [EntryText(Line("Leche", 2, 240))];
  }
}

=== FILE: catalog.dfy ===
/**
 * The product catalog of the shop: an insertion-ordered dictionary from
 * product name to unit price, the "name - $price" labels the product list
 * shows, and the search box that filters those labels.
 */
module Catalog {
  import opened Wrappers
  import opened Text
  import opened Money

  /** One catalog entry; the price is in cents. */
  datatype Product = Product(name: string, price: nat)

  /** Entries in insertion order, as Python iterates a `dict`. */
  type Catalog = seq<Product>

  /** A dictionary has no two keys alike. */
  predicate WellFormed(cat: Catalog) {
    forall i, j :: 0 <= i < j < |cat| ==> cat[i].name != cat[j].name
  }

  /** The products the shop starts with, prices in cents. */
  function Inventory(): Catalog {
    [ Product("Pan", 50),
      Product("Leche", 120),
      Product("Huevos (docena)", 250),
      Product("Arroz (1kg)", 100),
      Product("Café (250g)", 300),
      Product("Azúcar (1kg)", 90),
      Product("Mantequilla", 150),
      Product("Queso (500g)", 280) ]
  }

  /** `self.productos[name]` (None where Python raises KeyError). */
  function Lookup(cat: Catalog, name: string): (r: Option<nat>)
    ensures r.Some? ==> Product(name, r.value) in cat
    ensures r.None? ==> forall p :: p in cat ==> p.name != name
    decreases |cat|
  {
    if |cat| == 0 then None
    else if cat[0].name == name then Some(cat[0].price)
    else Lookup(cat[1..], name)
  }

  /** In a well-formed catalog a listed product is found under its own name, with its own price. */
  lemma LookupMember(cat: Catalog, p: Product)
    requires WellFormed(cat) && p in cat
    ensures Lookup(cat, p.name) == Some(p.price)
  {
    var r := Lookup(cat, p.name);
    var i :| 0 <= i < |cat| && cat[i] == p;
    var j :| 0 <= j < |cat| && cat[j] == Product(p.name, r.value);
    assert i == j;
  }

  // ---------------------------------------------------------------- labels

  /** What the product list puts between a name and its price, and splits on to read the name back. */
  const Sep: string := " - "

  /**
   * `f"{producto} - ${precio:.2f}"`: the name, the separator, and a price
   * that reads back as the product's price.
   */
  function Label(p: Product): (r: string)
    ensures p.name + Sep + "$" <= r
    ensures ParseCents(r[|p.name| + 4..]) == Some(p.price)
  {
    var price := FormatCents(p.price);
    var r := p.name + Sep + "$" + price;
    assert r[|p.name| + 4..] == price;
    FormatCentsRoundTrip(p.price);
    r
  }

  /**
   * `item.text().split(" - ")[0]`: the product name read back from a label,
   * the text before its first " - ", or the whole text when it has none.
   */
  function LabelName(text: string): (r: string)
    ensures r <= text
    ensures forall i :: 0 <= i < |r| ==> !OccursAt(text, Sep, i)
    ensures !IsSubstring(Sep, text) ==> r == text
    ensures |r| < |text| ==> OccursAt(text, Sep, |r|)
  {
    SplitFirst(text, Sep)
  }

  /**
   * The labels of a sequence of entries, in order; reading a label back gives
   * the name of its entry whenever that name is parsable.
   */
  function Labels(cat: Catalog): (r: seq<string>)
    ensures |r| == |cat|
    ensures forall i :: 0 <= i < |cat| ==> r[i] == Label(cat[i])
    ensures forall i :: 0 <= i < |cat| && Parsable(cat[i].name) ==> LabelName(r[i]) == cat[i].name
  {
    LabelsReadBack(cat);
    seq(|cat|, i requires 0 <= i < |cat| => Label(cat[i]))
  }

  /** Every parsable name in `cat` reads back from its label. */
  lemma LabelsReadBack(cat: Catalog)
    ensures forall i :: 0 <= i < |cat| && Parsable(cat[i].name) ==> LabelName(Label(cat[i])) == cat[i].name
  {
    forall i | 0 <= i < |cat| && Parsable(cat[i].name)
      ensures LabelName(Label(cat[i])) == cat[i].name
    {
      LabelRoundTrip(cat[i]);
    }
  }

  /**
   * A name that survives the label round trip: it holds no " - " and does not
   * end in " -" (which would join with the separator into an earlier " - ").
   */
  predicate Parsable(name: string) {
    && !IsSubstring(Sep, name)
    && !(|name| >= 2 && name[|name| - 2..] == " -")
  }

  /** Where it fits, " - " occurs exactly where a space, a hyphen and a space stand. */
  lemma SepChars(s: string, k: nat)
    requires k + 3 <= |s|
    ensures OccursAt(s, Sep, k) <==> s[k] == ' ' && s[k + 1] == '-' && s[k + 2] == ' '
  {
    assert s[k..k + 3] == [s[k], s[k + 1], s[k + 2]];
  }

  /** Within `name + " - " + rest`, no " - " starts inside a parsable `name`. */
  lemma NoSepInsideName(name: string, rest: string, k: nat)
    requires Parsable(name) && k < |name|
    ensures !OccursAt(name + Sep + rest, Sep, k)
  {
    var s := name + Sep + rest;
    var n := |name|;
    SepChars(s, k);
    if k + 3 <= n {
      assert s[k] == name[k] && s[k + 1] == name[k + 1] && s[k + 2] == name[k + 2];
      SepChars(name, k);
      assert !OccursAt(name, Sep, k);
    } else if k == n - 1 {
      assert s[k + 1] == ' ';
    } else {
      assert s[k] == name[n - 2] && s[k + 1] == name[n - 1];
      assert name[n - 2..] == [name[n - 2], name[n - 1]];
    }
  }

  /** Splitting `name + " - " + rest` on the first " - " gives back a parsable `name`. */
  lemma SplitBeforeSep(name: string, rest: string)
    requires Parsable(name)
    ensures SplitFirst(name + Sep + rest, Sep) == name
  {
    var s := name + Sep + rest;
    var r := SplitFirst(s, Sep);
    assert OccursAt(s, Sep, |name|) by {
      assert s[|name|..|name| + 3] == Sep;
    }
    if |r| < |name| {
      NoSepInsideName(name, rest, |r|);
    }
    assert s[..|name|] == name;
  }

  /** Rendering a label and splitting it on the first " - " recovers a parsable name. */
  lemma LabelRoundTrip(p: Product)
    requires Parsable(p.name)
    ensures LabelName(Label(p)) == p.name
  {
    assert Label(p) == p.name + Sep + ("$" + FormatCents(p.price));
    SplitBeforeSep(p.name, "$" + FormatCents(p.price));
  }

  /**
   * A name ending in " -" loses that ending when read back: its label holds
   * " -" followed by " - ", and the split happens at the first of them.
   */
  lemma DashEndingLost(name: string, price: nat)
    requires Parsable(name)
    ensures LabelName(Label(Product(name + " -", price))) == name
  {
    var f := FormatCents(price);
    DashThenSep(name, f);
    SplitBeforeSep(name, "- $" + f);
  }

  /** The label text of a name ending in " -", regrouped around the name's own end. */
  lemma DashThenSep(name: string, f: string)
    ensures (name + " -") + Sep + "$" + f == name + Sep + ("- $" + f)
  {
  }

  /**
   * So having no " - " is not enough for the round trip: "Pan -" holds no
   * " - " yet reads back as "Pan".
   */
  lemma LabelRoundTripNeedsSuffixCondition()
    ensures !IsSubstring(Sep, "Pan -")
    ensures LabelName(Label(Product("Pan -", 50))) == "Pan"
  {
    NoHyphenParsable("Pan");
    DashEndingLost("Pan", 50);
    assert "Pan" + " -" == "Pan -";
    forall i: nat | i + 3 <= |"Pan -"| ensures !OccursAt("Pan -", Sep, i) {
      SepChars("Pan -", i);
    }
  }

  /** A name without any hyphen is parsable. */
  lemma NoHyphenParsable(name: string)
    requires '-' !in name
    ensures Parsable(name)
  {
    forall i | 0 <= i && i + 3 <= |name| ensures !OccursAt(name, Sep, i) {
      assert name[i..i + 3][1] == name[i + 1];
    }
    assert |name| >= 2 ==> name[|name| - 2..][1] == name[|name| - 1];
  }

  /** A name that labels and prints cleanly: parsable and on one line. */
  predicate GoodName(name: string) {
    Parsable(name) && '\n' !in name
  }

  /** The starting catalog has no two products with the same name. */
  lemma InventoryWellFormed()
    ensures WellFormed(Inventory())
  {
  }

  /** Neither a hyphen nor a line break occurs in `name`. */
  predicate PlainName(name: string) {
    '-' !in name && '\n' !in name
  }

  /**
   * The starting catalog's names hold neither a hyphen nor a line break.
   * The eight literal names are checked two and four at a time, which keeps
   * each character-by-character check small.
   */
  lemma InventoryPlainNames()
    ensures forall i :: 0 <= i < |Inventory()| ==> PlainName(Inventory()[i].name)
  {
    PlainNamesOneToFour();
    PlainNamesFiveToEight();
  }

  /** The first four starting names (bread, milk, eggs, rice) are plain. */
  lemma PlainNamesOneToFour()
    ensures PlainName("Pan") && PlainName("Leche") && PlainName("Huevos (docena)") && PlainName("Arroz (1kg)")
  {
    PlainNamesOneToTwo();
  }

  /** The names of bread and milk are plain. */
  lemma PlainNamesOneToTwo()
    ensures PlainName("Pan") && PlainName("Leche")
  {
  }

  /** The last four starting names (coffee, sugar, butter, cheese) are plain. */
  lemma PlainNamesFiveToEight()
    ensures PlainName("Café (250g)") && PlainName("Azúcar (1kg)") && PlainName("Mantequilla") && PlainName("Queso (500g)")
  {
    PlainNamesFiveToSix();
  }

  /** The names of coffee and sugar are plain. */
  lemma PlainNamesFiveToSix()
    ensures PlainName("Café (250g)") && PlainName("Azúcar (1kg)")
  {
  }

  /** Every name in the starting catalog labels and prints cleanly. */
  lemma InventoryGoodNames()
    ensures forall p :: p in Inventory() ==> GoodName(p.name)
  {
    InventoryPlainNames();
    forall p | p in Inventory() ensures GoodName(p.name) {
      NoHyphenParsable(p.name);
    }
  }

  // ---------------------------------------------------------------- search

  /**
   * `texto in producto.lower()` where `texto` is the lower-cased query: the
   * empty query matches every product, and a match is never longer than the
   * name.
   */
  predicate Matches(p: Product, query: string)
    ensures query == "" ==> Matches(p, query)
    ensures Matches(p, query) ==> |query| <= |p.name|
  {
    assert query == "" ==> OccursAt(Lower(p.name), Lower(query), 0);
    IsSubstring(Lower(query), Lower(p.name))
  }

  /** Entry `a` comes strictly before entry `b` in `cat`. */
  ghost predicate Before(cat: Catalog, a: Product, b: Product) {
    exists i, j :: 0 <= i < j < |cat| && cat[i] == a && cat[j] == b
  }

  /** Every entry of `r` comes before the later ones in `cat`: `r` keeps the order of `cat`. */
  ghost predicate InOrder(r: Catalog, cat: Catalog) {
    forall i, j :: 0 <= i < j < |r| ==> Before(cat, r[i], r[j])
  }

  /** Order facts about the tail of a catalog carry over to the whole catalog. */
  lemma BeforeCons(cat: Catalog, a: Product, b: Product)
    requires |cat| > 0
    ensures Before(cat[1..], a, b) ==> Before(cat, a, b)
    ensures b in cat[1..] ==> Before(cat, cat[0], b)
  {
    if Before(cat[1..], a, b) {
      var i, j :| 0 <= i < j < |cat[1..]| && cat[1..][i] == a && cat[1..][j] == b;
      assert cat[i + 1] == a && cat[j + 1] == b;
    }
    if b in cat[1..] {
      var j :| 0 <= j < |cat[1..]| && cat[1..][j] == b;
      assert cat[0] == cat[0] && cat[j + 1] == b;
    }
  }

  /**
   * `buscar_producto`: the entries whose lower-cased name contains the
   * lower-cased query. `SearchKeepsOrder` adds that they come in catalog
   * order, without repeats.
   */
  function Search(cat: Catalog, query: string): (r: Catalog)
    ensures forall p :: p in r <==> p in cat && Matches(p, query)
    ensures |r| <= |cat|
    decreases |cat|
  {
    if |cat| == 0 then []
    else if Matches(cat[0], query) then [cat[0]] + Search(cat[1..], query)
    else Search(cat[1..], query)
  }

  /** An order kept within the tail of a catalog is kept within the catalog. */
  lemma InOrderTail(r: Catalog, cat: Catalog)
    requires |cat| > 0 && InOrder(r, cat[1..])
    ensures InOrder(r, cat)
  {
    forall i, j | 0 <= i < j < |r| ensures Before(cat, r[i], r[j]) {
      BeforeCons(cat, r[i], r[j]);
    }
  }

  /** Putting the first catalog entry in front of entries from the tail keeps catalog order. */
  lemma InOrderCons(r: Catalog, cat: Catalog)
    requires |cat| > 0 && InOrder(r, cat[1..])
    requires forall p :: p in r ==> p in cat[1..]
    ensures InOrder([cat[0]] + r, cat)
  {
    var r' := [cat[0]] + r;
    forall i, j | 0 <= i < j < |r'| ensures Before(cat, r'[i], r'[j]) {
      assert r'[j] == r[j - 1] && r[j - 1] in r;
      BeforeCons(cat, r'[i], r'[j]);
      if i > 0 {
        assert r'[i] == r[i - 1];
        assert Before(cat[1..], r[i - 1], r[j - 1]);
      }
    }
  }

  /** Entries listed in the order of a dictionary have distinct names. */
  lemma InOrderWellFormed(r: Catalog, cat: Catalog)
    requires InOrder(r, cat) && WellFormed(cat)
    ensures WellFormed(r)
  {
    forall i, j | 0 <= i < j < |r| ensures r[i].name != r[j].name {
      assert Before(cat, r[i], r[j]);
      var k, l :| 0 <= k < l < |cat| && cat[k] == r[i] && cat[l] == r[j];
    }
  }

  /** The search lists entries in catalog order, and a dictionary's search has no repeated name. */
  lemma {:induction false} SearchKeepsOrder(cat: Catalog, query: string)
    ensures InOrder(Search(cat, query), cat)
    ensures WellFormed(cat) ==> WellFormed(Search(cat, query))
    decreases |cat|
  {
    var r := Search(cat, query);
    if |cat| > 0 {
      SearchKeepsOrder(cat[1..], query);
      var rest := Search(cat[1..], query);
      if Matches(cat[0], query) {
        InOrderCons(rest, cat);
      } else {
        InOrderTail(rest, cat);
      }
    }
    if WellFormed(cat) {
      InOrderWellFormed(r, cat);
    }
  }

  /** An empty search box lists the whole catalog. */
  lemma {:induction false} SearchEmptyQuery(cat: Catalog)
    ensures Search(cat, "") == cat
    decreases |cat|
  {
    if |cat| > 0 {
      assert Matches(cat[0], "") by {
        assert OccursAt(Lower(cat[0].name), Lower(""), 0);
      }
      SearchEmptyQuery(cat[1..]);
      assert [cat[0]] + cat[1..] == cat;
    }
  }

  /** The search only sees the lower-cased query, so queries differing in case list the same entries. */
  lemma {:induction false} SearchCaseInsensitive(cat: Catalog, q1: string, q2: string)
    requires Lower(q1) == Lower(q2)
    ensures Search(cat, q1) == Search(cat, q2)
    decreases |cat|
  {
    if |cat| > 0 {
      SearchCaseInsensitive(cat[1..], q1, q2);
    }
  }

  /** A query that matches nothing lists nothing, rather than failing. */
  lemma SearchNoMatch(cat: Catalog, query: string)
    requires forall p :: p in cat ==> !Matches(p, query)
    ensures Search(cat, query) == []
  {
  }

  /** "pan" finds "Pan": the comparison ignores case. */
  lemma SearchIgnoresCaseExample()
    ensures Matches(Product("Pan", 50), "pan")
    ensures Matches(Product("Pan", 50), "PAN")
  {
    assert Lower("pan") == "pan";
    assert Lower("PAN") == "pan";
    assert Lower("Pan") == "pan";
    assert OccursAt("pan", "pan", 0);
  }
}

=== FILE: money.dfy ===
/**
 * Amounts of money as whole cents, and their rendering with Python's `:.2f`
 * format ("d.dd", no leading zeros in the whole part).
 */
module Money {
  import opened Wrappers

  predicate IsDigit(c: char) {
    '0' <= c <= '9'
  }

  predicate AllDigits(s: string) {
    forall i :: 0 <= i < |s| ==> IsDigit(s[i])
  }

  function DigitValue(c: char): (d: nat)
    requires IsDigit(c)
    ensures d < 10
  {
    c as int - '0' as int
  }

  function Digit(d: nat): (c: char)
    requires d < 10
    ensures IsDigit(c) && DigitValue(c) == d
  {
    ('0' as int + d) as char
  }

  /** Decimal rendering of a natural number, as Python's `str(n)`. */
  function NatToString(n: nat): (s: string)
    ensures |s| >= 1 && AllDigits(s)
    ensures (s[0] == '0') == (n == 0)
    ensures |s| > 1 ==> s[0] != '0'
    decreases n
  {
    if n < 10 then [Digit(n)] else NatToString(n / 10) + [Digit(n % 10)]
  }

  /** The value of a string of decimal digits (the empty string reads as 0). */
  function ParseNat(s: string): nat
    requires AllDigits(s)
    decreases |s|
  {
    if |s| == 0 then 0 else ParseNat(s[..|s| - 1]) * 10 + DigitValue(s[|s| - 1])
  }

  /** Reading back a rendered number gives the number. */
  lemma {:induction false} ParseNatToString(n: nat)
    ensures ParseNat(NatToString(n)) == n
    decreases n
  {
    if n >= 10 {
      var s := NatToString(n);
      assert s[..|s| - 1] == NatToString(n / 10);
      ParseNatToString(n / 10);
    }
  }

  /** `f"{cents / 100:.2f}"`: whole part, a dot, and exactly two decimals. */
  function FormatCents(c: nat): (s: string)
    ensures |s| >= 4 && s[|s| - 3] == '.'
    ensures AllDigits(s[..|s| - 3]) && IsDigit(s[|s| - 2]) && IsDigit(s[|s| - 1])
    ensures forall i :: 0 <= i < |s| ==> IsDigit(s[i]) || s[i] == '.'
  {
    var whole := NatToString(c / 100);
    var s := whole + "." + [Digit(c % 100 / 10), Digit(c % 10)];
    assert s[..|s| - 3] == whole;
    s
  }

  /** The inverse of `FormatCents`: reads "d.dd" back into cents, or refuses. */
  function ParseCents(s: string): Option<nat> {
    if |s| >= 4 && s[|s| - 3] == '.' && AllDigits(s[..|s| - 3])
       && IsDigit(s[|s| - 2]) && IsDigit(s[|s| - 1])
    then Some(ParseNat(s[..|s| - 3]) * 100 + DigitValue(s[|s| - 2]) * 10 + DigitValue(s[|s| - 1]))
    else None
  }

  /** Rendering loses nothing: the printed amount reads back as the same number of cents. */
  lemma FormatCentsRoundTrip(c: nat)
    ensures ParseCents(FormatCents(c)) == Some(c)
  {
    var s := FormatCents(c);
    assert s[..|s| - 3] == NatToString(c / 100);
    ParseNatToString(c / 100);
  }

  /** Two different amounts never print the same. */
  lemma FormatCentsInjective(a: nat, b: nat)
    requires FormatCents(a) == FormatCents(b)
    ensures a == b
  {
    FormatCentsRoundTrip(a);
    FormatCentsRoundTrip(b);
  }

  /** `f"{x:.2f}"` for a signed amount: a minus sign in front of the magnitude when negative. */
  function FormatAmount(a: int): (s: string)
    ensures a >= 0 ==> s == FormatCents(a)
    ensures a < 0 ==> |s| > 1 && s[0] == '-' && s[1..] == FormatCents(-a)
    ensures |s| >= 4 && (s[0] == '-' <==> a < 0)
    ensures forall i :: 0 <= i < |s| ==> IsDigit(s[i]) || s[i] == '.' || s[i] == '-'
    ensures forall i :: 0 < i < |s| ==> s[i] != '-'
  {
    if a < 0 then "-" + FormatCents(-a) else FormatCents(a)
  }

  /** The inverse of `FormatAmount`: an optional minus sign, then "d.dd". */
  function ParseAmount(s: string): Option<int> {
    if |s| > 0 && s[0] == '-' then
      match ParseCents(s[1..])
      case Some(c) => Some(-(c as int))
      case None => None
    else
      match ParseCents(s)
      case Some(c) => Some(c)
      case None => None
  }

  /** A printed total, negative or not, reads back as the same number of cents. */
  lemma FormatAmountRoundTrip(a: int)
    ensures ParseAmount(FormatAmount(a)) == Some(a)
  {
    if a < 0 {
      FormatCentsRoundTrip(-a);
    } else {
      FormatCentsRoundTrip(a);
    }
  }

  /** Worked values: the prices of bread and milk and the totals of three breads, then two milks more, then the milks alone. */
  lemma FormatExamples()
    ensures FormatCents(50) == "0.50"
    ensures FormatCents(120) == "1.20"
    ensures FormatCents(150) == "1.50"
    ensures FormatCents(390) == "3.90"
    ensures FormatCents(240) == "2.40"
  {
  }
}

=== FILE: receipt.dfy ===
/**
 * `generar_recibo`: the plain-text receipt of the cart, refused when the
 * cart is empty.
 */
module Receipt {
  import opened Wrappers
  import opened Text
  import opened Money
  import opened Cart

  const Header: string := "----- RECIBO DE COMPRA -----"
  const Rule: string := "----------------------------"

  /** One receipt line: `Cart.LineText` with the mark " = $", its contract specialised. */
  function ItemLine(l: Line): (r: string)
    ensures l.product + " x" <= r
    ensures exists q, m :: && AllDigits(q) && ParseNat(q) == l.quantity
                           && ParseCents(m) == Some(l.subtotal)
                           && r == l.product + " x" + q + " = $" + m
    ensures '\n' !in l.product ==> '\n' !in r
  {
    LineText(l, " = $")
  }

  /**
   * The receipt shows each line as the cart widget did: the same text, of the
   * same length, except for '=' where the widget has '-'.
   */
  lemma ItemLineMirrorsEntry(l: Line)
    ensures |ItemLine(l)| == |EntryText(l)|
    ensures var k := |l.product| + 3 + |NatToString(l.quantity)|;
            && k < |ItemLine(l)|
            && ItemLine(l)[k] == '=' && EntryText(l)[k] == '-'
            && forall i :: 0 <= i < |ItemLine(l)| && i != k ==> ItemLine(l)[i] == EntryText(l)[i]
  {
    var a, m := l.product + " x" + NatToString(l.quantity), FormatCents(l.subtotal);
    assert ItemLine(l) == a + " = $" + m;
    assert EntryText(l) == a + " - $" + m;
    forall i | 0 <= i < |ItemLine(l)| && i != |a| + 1
      ensures ItemLine(l)[i] == EntryText(l)[i]
    {
      SameOutsideMark(a, " = $", " - $", m, i);
    }
  }

  /** Two texts that differ only in the middle piece agree outside it and where the pieces agree. */
  lemma SameOutsideMark(a: string, m1: string, m2: string, b: string, i: int)
    requires |m1| == |m2| && 0 <= i < |a| + |m1| + |b|
    requires |a| <= i < |a| + |m1| ==> m1[i - |a|] == m2[i - |a|]
    ensures (a + m1 + b)[i] == (a + m2 + b)[i]
  {
  }

  /** The caption in front of the total on the last receipt line. */
  const TotalCaption: string := "TOTAL A PAGAR: $"

  /**
   * The last receipt line, `f"TOTAL A PAGAR: ${self.total:.2f}"`: a single
   * line whose amount reads back as the total.
   */
  function TotalLine(total: int): (r: string)
    ensures TotalCaption <= r
    ensures ParseAmount(r[|TotalCaption|..]) == Some(total)
    ensures '\n' !in r
  {
    var r := TotalCaption + FormatAmount(total);
    assert r[|TotalCaption|..] == FormatAmount(total);
    FormatAmountRoundTrip(total);
    assert '\n' !in TotalCaption && '\n' !in FormatAmount(total);
    r
  }

  /**
   * What the loop over `carrito_items` appends: each item line followed by a
   * line break, so nothing for an empty cart and a text ending in a line
   * break otherwise.
   */
  function Items(lines: seq<Line>): (r: string)
    ensures r == "" <==> |lines| == 0
    ensures |lines| > 0 ==> r[|r| - 1] == '\n'
    decreases |lines|
  {
    if |lines| == 0 then "" else ItemLine(lines[0]) + "\n" + Items(lines[1..])
  }

  /** The receipt text, or `EmptyCart` when there is nothing in the cart. */
  function ReceiptText(c: Cart): (r: Result<string, Error>)
    ensures r.Failure? <==> |c.lines| == 0
    ensures r.Failure? ==> r.error == EmptyCart
    ensures r.Success? ==> Header <= r.value
  {
    if |c.lines| == 0 then Failure(EmptyCart)
    else Success(Header + "\n\nItems:\n" + Items(c.lines) + Rule + "\n" + TotalLine(c.total))
  }

  /** The item lines of the receipt, one per cart line, in cart order. */
  function ItemLines(lines: seq<Line>): (r: seq<string>)
    ensures |r| == |lines|
    ensures forall i :: 0 <= i < |lines| ==> r[i] == ItemLine(lines[i])
    ensures (forall i :: 0 <= i < |lines| ==> '\n' !in lines[i].product) ==>
              forall i :: 0 <= i < |r| ==> '\n' !in r[i]
  {
    seq(|lines|, i requires 0 <= i < |lines| => ItemLine(lines[i]))
  }

  /** Python's loop output followed by a joined tail is one join of the item lines and the tail. */
  lemma {:induction false} ItemsThenJoin(lines: seq<Line>, tail: seq<string>)
    requires |tail| > 0
    ensures Items(lines) + Join(tail, '\n') == Join(ItemLines(lines) + tail, '\n')
    decreases |lines|
  {
    var all := ItemLines(lines) + tail;
    if |lines| == 0 {
      assert all == tail;
    } else {
      ItemsThenJoin(lines[1..], tail);
      ItemLinesCons(lines, tail);
      JoinCons(all, '\n');
      ItemsCons(lines);
      LineThenRest(ItemLine(lines[0]), Items(lines[1..]), Join(tail, '\n'));
    }
  }

  /** A line, a line break and a text, followed by more text, regrouped. */
  lemma LineThenRest(a: string, b: string, c: string)
    ensures a + ['\n'] + b + c == a + ['\n'] + (b + c)
  {
  }

  /** The item lines of a non-empty cart followed by a tail, split after the first. */
  lemma ItemLinesCons(lines: seq<Line>, tail: seq<string>)
    requires |lines| > 0
    ensures (ItemLines(lines) + tail)[0] == ItemLine(lines[0])
    ensures (ItemLines(lines) + tail)[1..] == ItemLines(lines[1..]) + tail
  {
    var a, b := ItemLines(lines) + tail, ItemLines(lines[1..]) + tail;
    assert |a[1..]| == |b|;
    forall i | 0 <= i < |b|
      ensures a[1..][i] == b[i]
    {
      if i < |lines| - 1 {
        assert lines[1..][i] == lines[i + 1];
      }
    }
  }

  /** The loop output of a non-empty cart is its first line, a line break, and the rest. */
  lemma ItemsCons(lines: seq<Line>)
    requires |lines| > 0
    ensures Items(lines) == ItemLine(lines[0]) + ['\n'] + Items(lines[1..])
  {
  }

  /** A join of two or more pieces is the first piece, a separator, and the join of the rest. */
  lemma JoinCons(parts: seq<string>, sep: char)
    requires |parts| > 1
    ensures Join(parts, sep) == parts[0] + [sep] + Join(parts[1..], sep)
  {
  }

  /** A join of three leading pieces and a non-empty rest, spelled out. */
  lemma JoinThree(a: string, b: string, c: string, rest: seq<string>, sep: char)
    requires |rest| > 0
    ensures Join([a, b, c] + rest, sep) == a + [sep] + (b + [sep] + (c + [sep] + Join(rest, sep)))
  {
    var parts := [a, b, c] + rest;
    assert parts[1..] == [b, c] + rest;
    assert parts[1..][1..] == [c] + rest;
    assert parts[1..][1..][1..] == rest;
    JoinCons(parts, sep);
    JoinCons(parts[1..], sep);
    JoinCons(parts[1..][1..], sep);
  }

  /** The receipt's concatenation regrouped the way a join builds it. */
  lemma Regroup(h: string, items: string, r: string, t: string)
    ensures h + "\n\nItems:\n" + items + r + "\n" + t
         == h + ['\n'] + ("" + ['\n'] + ("Items:" + ['\n'] + (items + (r + ['\n'] + t))))
  {
    var nl := ['\n'];
    assert "" + nl + ("Items:" + nl + (items + (r + nl + t))) == "\nItems:\n" + (items + (r + nl + t));
    assert h + nl + ("\nItems:\n" + (items + (r + nl + t))) == h + "\n\nItems:\n" + (items + (r + nl + t));
  }

  /** The receipt is the join, with line breaks, of its lines. */
  lemma ReceiptIsJoin(c: Cart)
    requires |c.lines| > 0
    ensures ReceiptText(c).Success?
    ensures ReceiptText(c).value == Join(ReceiptParts(c), '\n')
  {
    var t := TotalLine(c.total);
    var tail := [Rule, t];
    var rest := ItemLines(c.lines) + tail;
    JoinCons(tail, '\n');
    assert tail[1..] == [t];
    ItemsThenJoin(c.lines, tail);
    JoinThree(Header, "", "Items:", rest, '\n');
    Regroup(Header, Items(c.lines), Rule, t);
  }

  /** The receipt's lines: header, blank, "Items:", the item lines, the rule, the total. */
  function ReceiptParts(c: Cart): (r: seq<string>)
    ensures |r| == |c.lines| + 5
  {
    [Header, "", "Items:"] + (ItemLines(c.lines) + [Rule, TotalLine(c.total)])
  }

  /** The receipt's fixed texts hold no line break. */
  lemma FixedLinesSingleLine()
    ensures '\n' !in Header && '\n' !in Rule && '\n' !in "Items:"
  {
  }

  /** No text of `parts` holds a line break. */
  predicate SingleLines(parts: seq<string>) {
    forall i :: 0 <= i < |parts| ==> '\n' !in parts[i]
  }

  /** Texts free of line breaks stay so when put together. */
  lemma SingleLinesConcat(a: seq<string>, b: seq<string>)
    requires SingleLines(a) && SingleLines(b)
    ensures SingleLines(a + b)
  {
    forall i | 0 <= i < |a + b| ensures '\n' !in (a + b)[i] {
      if i >= |a| {
        assert (a + b)[i] == b[i - |a|];
      }
    }
  }

  /** None of the receipt's lines holds a line break when no product name does. */
  lemma ReceiptPartsSingleLine(c: Cart)
    requires forall i :: 0 <= i < |c.lines| ==> '\n' !in c.lines[i].product
    ensures SingleLines(ReceiptParts(c))
  {
    var fixed, items, tail := [Header, "", "Items:"], ItemLines(c.lines), [Rule, TotalLine(c.total)];
    FixedLinesSingleLine();
    assert SingleLines(fixed);
    assert SingleLines(tail);
    SingleLinesConcat(items, tail);
    SingleLinesConcat(fixed, items + tail);
  }

  /**
   * Read line by line, the receipt of a non-empty cart is the header, a
   * blank line, "Items:", one line per cart line in cart order, the rule,
   * and the total line.
   */
  lemma ReceiptByLine(c: Cart)
    requires |c.lines| > 0
    requires forall i :: 0 <= i < |c.lines| ==> '\n' !in c.lines[i].product
    ensures ReceiptText(c).Success?
    ensures Split(ReceiptText(c).value, '\n')
            == [Header, "", "Items:"] + ItemLines(c.lines) + [Rule, TotalLine(c.total)]
  {
    ReceiptIsJoin(c);
    ReceiptPartsSingleLine(c);
    SplitJoin(ReceiptParts(c), '\n');
  }
}

=== FILE: shop.dfy ===
/**
 * The shop window as a state machine: the catalog, the search-box text, the
 * labels the product list shows, and the cart. Each user action (typing in
 * the search box, clicking "Agregar al carrito", clicking "Eliminar del
 * carrito") is one step. A step that ends in a warning box leaves the state
 * as it was; so does one that ends in a Python exception (KeyError, IndexError),
 * which the program raises before changing anything and which never happens
 * in a consistent window.
 */
module Shop {
  import opened Wrappers
  import opened Text
  import opened Money
  import opened Catalog
  import opened Cart
  import opened Receipt

  /** `self.productos`, the text of `buscar_input`, the items of `lista_productos`, and the cart. */
  datatype Shop = Shop(catalog: Catalog, query: string, shown: seq<string>, cart: Cart)

  /**
   * A user action. Rows are the widget's current row, -1 when nothing is
   * selected; the quantity is the spin box value.
   */
  datatype Event =
    | Typed(text: string)
    | AddClicked(row: int, quantity: int)
    | DeleteClicked(row: int)

  /** The window as it opens: consistent, with an empty cart. */
  function Start(): (r: Shop)
    ensures r.catalog == Inventory() && r.query == "" && r.shown == Labels(Inventory())
    ensures Consistent(r)
    ensures |r.cart.lines| == 0 && r.cart.total == 0
  {
    InventoryWellFormed();
    InventoryGoodNames();
    OpenConsistent(Inventory());
    Shop(Inventory(), "", Labels(Inventory()), Empty())
  }

  /** Any clean dictionary, shown in full with an empty cart, is a consistent window. */
  lemma OpenConsistent(cat: Catalog)
    requires CleanCatalog(cat)
    ensures Consistent(Shop(cat, "", Labels(cat), Empty()))
  {
    SearchEmptyQuery(cat);
  }

  /** What the widgets guarantee before a handler runs: rows in range, quantity within the spin box. */
  predicate Enabled(s: Shop, e: Event) {
    match e
    case Typed(_) => true
    case AddClicked(row, q) => row < |s.shown| && ValidQuantity(q)
    case DeleteClicked(row) => row < |s.cart.entries|
  }

  /** One handler run: `buscar_producto`, `agregar_producto` or `eliminar_producto`. */
  function Step(s: Shop, e: Event): (r: Result<Shop, Error>)
    requires Enabled(s, e)
    ensures r.Success? ==> r.value.catalog == s.catalog
    ensures e.Typed? ==> r.Success? && r.value.cart == s.cart && r.value.query == e.text
    ensures e.Typed? ==> r.value.shown == Labels(Search(s.catalog, e.text))
    ensures e.AddClicked? ==> (r == Failure(NoProductSelected) <==> e.row < 0)
    ensures e.DeleteClicked? ==> (r == Failure(NoCartSelection) <==> e.row < 0)
    ensures !e.Typed? && r.Success? ==> r.value.shown == s.shown && r.value.query == s.query
    ensures e.DeleteClicked? && e.row >= 0 && Valid(s.cart) ==> r.Success? && r.value.cart == Remove(s.cart, e.row).value
  {
    match e
    case Typed(text) =>
      Success(s.(query := text, shown := Labels(Search(s.catalog, text))))
    case AddClicked(row, q) =>
      if row < 0 then Failure(NoProductSelected)
      else
        var name := LabelName(s.shown[row]);
        (match Lookup(s.catalog, name)
         case None => Failure(UnknownProduct(name))
         case Some(price) => Success(s.(cart := Add(s.cart, name, price, q))))
    case DeleteClicked(row) =>
      match Remove(s.cart, row)
      case Failure(err) => Failure(err)
      case Success(c) => Success(s.(cart := c))
  }

  /**
   * The state after an action: the catalog never changes, a refused action
   * changes nothing, and typing only records the query and its results.
   */
  function Next(s: Shop, e: Event): (r: Shop)
    requires Enabled(s, e)
    ensures r.catalog == s.catalog
    ensures Step(s, e).Failure? ==> r == s
    ensures e.Typed? ==> r.cart == s.cart && r.query == e.text
  {
    match Step(s, e)
    case Success(t) => t
    case Failure(_) => s
  }

  /** Every action of `events` is enabled in the state it reaches. */
  predicate Admissible(s: Shop, events: seq<Event>)
    decreases |events|
  {
    |events| == 0 || (Enabled(s, events[0]) && Admissible(Next(s, events[0]), events[1..]))
  }

  /** The state after a whole session of actions. */
  function Run(s: Shop, events: seq<Event>): Shop
    requires Admissible(s, events)
    decreases |events|
  {
    if |events| == 0 then s else Run(Next(s, events[0]), events[1..])
  }

  /** A cart line priced from the catalog: a known product, a spin-box quantity, price times quantity. */
  predicate Priced(cat: Catalog, l: Line) {
    && ValidQuantity(l.quantity)
    && Lookup(cat, l.product).Some?
    && l.subtotal == Lookup(cat, l.product).value * l.quantity
  }

  predicate AllPriced(cat: Catalog, lines: seq<Line>) {
    forall i :: 0 <= i < |lines| ==> Priced(cat, lines[i])
  }

  /** A dictionary whose names all label and print cleanly. */
  predicate CleanCatalog(cat: Catalog) {
    WellFormed(cat) && forall p :: p in cat ==> GoodName(p.name)
  }

  /**
   * The window invariant: a clean dictionary, a product list showing exactly
   * the search results, a valid cart, and every cart line priced from the
   * catalog.
   */
  predicate Consistent(s: Shop) {
    && CleanCatalog(s.catalog)
    && s.shown == Labels(Search(s.catalog, s.query))
    && Valid(s.cart)
    && AllPriced(s.catalog, s.cart.lines)
  }

  /** The product behind row `row` of the list: reading its label back finds it, at its price. */
  lemma ShownProduct(s: Shop, row: nat)
    requires Consistent(s) && row < |s.shown|
    ensures var p := Search(s.catalog, s.query)[row];
            && p in s.catalog
            && LabelName(s.shown[row]) == p.name
            && Lookup(s.catalog, p.name) == Some(p.price)
  {
    var found := Search(s.catalog, s.query);
    var p := found[row];
    assert p in found;
    assert s.shown[row] == Label(p);
    assert GoodName(p.name);
    LabelRoundTrip(p);
    LookupMember(s.catalog, p);
  }

  /**
   * Adding the product in row `row` of the list succeeds (the label read-back
   * never raises KeyError) and adds to the cart the product shown in that row
   * at its catalog price; `Cart.Add` says what that does to the lines.
   */
  lemma AddSelectedProduct(s: Shop, row: nat, q: int)
    requires Consistent(s) && row < |s.shown| && ValidQuantity(q)
    ensures Step(s, AddClicked(row, q)).Success?
    ensures var p := Search(s.catalog, s.query)[row];
            Next(s, AddClicked(row, q)) == s.(cart := Add(s.cart, p.name, p.price, q))
  {
    ShownProduct(s, row);
    AddFound(s, row, q, Search(s.catalog, s.query)[row]);
  }

  /** Adding a row whose label reads back to a catalog product adds that product at its price. */
  lemma AddFound(s: Shop, row: nat, q: int, p: Product)
    requires row < |s.shown| && ValidQuantity(q)
    requires LabelName(s.shown[row]) == p.name && Lookup(s.catalog, p.name) == Some(p.price)
    ensures Step(s, AddClicked(row, q)) == Success(s.(cart := Add(s.cart, p.name, p.price, q)))
  {
  }

  /** Appending a line priced from the catalog keeps every line priced. */
  lemma PricedAfterAdd(cat: Catalog, c: Cart, p: Product, q: int)
    requires AllPriced(cat, c.lines) && Lookup(cat, p.name) == Some(p.price) && ValidQuantity(q)
    ensures AllPriced(cat, Add(c, p.name, p.price, q).lines)
  {
    var lines := Add(c, p.name, p.price, q).lines;
    forall i | 0 <= i < |lines| ensures Priced(cat, lines[i]) {
      if i < |c.lines| {
        assert lines[i] == lines[..|c.lines|][i] == c.lines[i];
      }
    }
  }

  /** Removing a line keeps every remaining line priced. */
  lemma PricedAfterRemove(cat: Catalog, c: Cart, row: int)
    requires AllPriced(cat, c.lines) && row < |c.entries| && Remove(c, row).Success?
    ensures AllPriced(cat, Remove(c, row).value.lines)
  {
    var lines := Remove(c, row).value.lines;
    forall i | 0 <= i < |lines| ensures Priced(cat, lines[i]) {
      if i >= row {
        assert lines[i] == c.lines[i + 1];
      }
    }
  }

  /** Every action keeps the window consistent. */
  lemma StepPreservesConsistent(s: Shop, e: Event)
    requires Consistent(s) && Enabled(s, e)
    ensures Consistent(Next(s, e))
  {
    match e
    case Typed(_) =>
    case AddClicked(row, q) =>
      if row >= 0 {
        var p := Search(s.catalog, s.query)[row];
        ShownProduct(s, row);
        AddSelectedProduct(s, row, q);
        PricedAfterAdd(s.catalog, s.cart, p, q);
      }
    case DeleteClicked(row) =>
      if Remove(s.cart, row).Success? {
        PricedAfterRemove(s.catalog, s.cart, row);
      }
  }

  /** After any admissible session the window is still consistent; in particular the total is the sum of the subtotals. */
  lemma {:induction false} RunPreservesConsistent(s: Shop, events: seq<Event>)
    requires Consistent(s) && Admissible(s, events)
    ensures Consistent(Run(s, events))
    ensures Run(s, events).cart.total == Sum(Run(s, events).cart.lines)
    decreases |events|
  {
    if |events| > 0 {
      StepPreservesConsistent(s, events[0]);
      RunPreservesConsistent(Next(s, events[0]), events[1..]);
    }
  }

  /** Deleting with no cart row selected changes nothing. */
  lemma DeleteWithoutSelection(s: Shop, row: int)
    requires row < 0
    ensures Enabled(s, DeleteClicked(row))
    ensures Next(s, DeleteClicked(row)) == s
  {
  }

  /**
   * The receipt of a non-empty cart whose lines are priced from a clean
   * catalog and whose total is the sum of its subtotals (as in every
   * consistent window), read line by line.
   */
  lemma ShopReceipt(s: Shop)
    requires CleanCatalog(s.catalog) && AllPriced(s.catalog, s.cart.lines)
    requires s.cart.total == Sum(s.cart.lines) && |s.cart.lines| > 0
    ensures ReceiptText(s.cart).Success?
    ensures Split(ReceiptText(s.cart).value, '\n')
            == [Header, "", "Items:"] + ItemLines(s.cart.lines) + [Rule, TotalLine(Sum(s.cart.lines))]
  {
    forall i | 0 <= i < |s.cart.lines| ensures '\n' !in s.cart.lines[i].product {
      var l := s.cart.lines[i];
      assert Priced(s.catalog, l);
      var p := Product(l.product, Lookup(s.catalog, l.product).value);
      assert p in s.catalog;
      assert GoodName(p.name);
    }
    ReceiptByLine(s.cart);
  }

  /** The caption in front of the unit price. */
  const CaptionPrefix: string := "Precio unitario: $"

  /**
   * `mostrar_precio_unitario`: the caption for the product list's current row
   * (-1 when none). Its amount reads back as the price looked up under the
   * row's name, and as 0 when nothing is selected or the name is unknown.
   */
  function PriceCaption(s: Shop, row: int): (r: string)
    requires row < |s.shown|
    ensures CaptionPrefix <= r
    ensures row < 0 ==> ParseCents(r[|CaptionPrefix|..]) == Some(0)
    ensures row >= 0 ==> ParseCents(r[|CaptionPrefix|..])
                         == Some(Lookup(s.catalog, LabelName(s.shown[row])).GetOr(0))
  {
    var price := if row < 0 then 0 else Lookup(s.catalog, LabelName(s.shown[row])).GetOr(0);
    var r := CaptionPrefix + FormatCents(price);
    assert r[|CaptionPrefix|..] == FormatCents(price);
    FormatCentsRoundTrip(price);
    r
  }

  /** The caption shows the catalog price of the product in the selected row, and 0.00 without one. */
  lemma PriceCaptionShowsPrice(s: Shop, row: int)
    requires Consistent(s) && row < |s.shown|
    ensures row < 0 ==> PriceCaption(s, row) == "Precio unitario: $0.00"
    ensures row >= 0 ==> PriceCaption(s, row)
                         == "Precio unitario: $" + FormatCents(Search(s.catalog, s.query)[row].price)
  {
    if row >= 0 {
      ShownProduct(s, row);
      CaptionFound(s, row, Search(s.catalog, s.query)[row]);
    } else {
      CaptionWithoutSelection(s, row);
    }
  }

  /** A row whose label reads back to a catalog name gets that product's price in the caption. */
  lemma CaptionFound(s: Shop, row: nat, p: Product)
    requires row < |s.shown|
    requires LabelName(s.shown[row]) == p.name && Lookup(s.catalog, p.name) == Some(p.price)
    ensures PriceCaption(s, row) == "Precio unitario: $" + FormatCents(p.price)
  {
  }

  /** With no row selected the caption shows a zero price. */
  lemma CaptionWithoutSelection(s: Shop, row: int)
    requires row < 0
    ensures PriceCaption(s, row) == "Precio unitario: $0.00"
  {
    assert FormatCents(0) == "0.00";
  }
}

=== FILE: text.dfy ===
/**
 * The few Python string operations the shop relies on: `pat in s`,
 * `s.split(sep)[0]` and `s.lower()`. Splitting and joining on a line break
 * are how the model reads back, line by line, the receipt the program
 * builds by concatenation.
 */
module Text {

  /** True when `pat` appears in `s` starting at index `i`. */
  predicate OccursAt(s: string, pat: string, i: int) {
    0 <= i && i + |pat| <= |s| && s[i..i + |pat|] == pat
  }

  /** Dropping the first character shifts every occurrence one place to the left. */
  lemma OccursAtTail(s: string, pat: string, i: nat)
    requires |s| > 0
    ensures OccursAt(s[1..], pat, i) <==> OccursAt(s, pat, i + 1)
  {
    if i + 1 + |pat| <= |s| {
      assert s[1..][i..i + |pat|] == s[i + 1..i + 1 + |pat|];
    }
  }

  /** When `pat` does not start `s`, it occurs in `s` exactly when it occurs in `s[1..]`. */
  lemma OccursLater(s: string, pat: string)
    requires |s| >= |pat| && s[..|pat|] != pat
    ensures (exists i :: OccursAt(s, pat, i)) <==> (exists i :: OccursAt(s[1..], pat, i))
  {
    if exists i :: OccursAt(s, pat, i) {
      var i :| OccursAt(s, pat, i);
      assert i != 0;
      OccursAtTail(s, pat, i - 1);
    }
    if exists i :: OccursAt(s[1..], pat, i) {
      var i :| OccursAt(s[1..], pat, i);
      OccursAtTail(s, pat, i);
    }
  }

  /** Python's `pat in s` on strings: the empty pattern occurs everywhere. */
  function IsSubstring(pat: string, s: string): (r: bool)
    ensures r <==> exists i :: OccursAt(s, pat, i)
    decreases |s|
  {
    if |s| < |pat| then false
    else if s[..|pat|] == pat then assert OccursAt(s, pat, 0); true
    else OccursLater(s, pat); IsSubstring(pat, s[1..])
  }

  /**
   * Python's `s.split(sep)[0]`: the text before the first occurrence of `sep`,
   * or all of `s` when `sep` does not occur.
   */
  function SplitFirst(s: string, sep: string): (r: string)
    requires |sep| > 0
    ensures r <= s
    ensures forall i :: 0 <= i < |r| ==> !OccursAt(s, sep, i)
    ensures |r| < |s| ==> OccursAt(s, sep, |r|)
    decreases |s|
  {
    if |s| < |sep| then s
    else if s[..|sep|] == sep then []
    else
      var r := [s[0]] + SplitFirst(s[1..], sep);
      assert forall i :: 1 <= i < |r| ==> !OccursAt(s, sep, i) by {
        forall i | 1 <= i < |r| ensures !OccursAt(s, sep, i) {
          OccursAtTail(s, sep, i - 1);
        }
      }
      OccursAtTail(s, sep, |r| - 1);
      r
  }

  /** The letters `str.lower()` changes within ASCII and Latin-1: A-Z and À-Þ except ×. */
  predicate IsUpper(c: char) {
    ('A' <= c <= 'Z') || ('À' <= c <= 'Þ' && c != '×')
  }

  /** `str.lower()` on one character of ASCII or Latin-1. */
  function LowerChar(c: char): (d: char)
    ensures !IsUpper(d)
    ensures IsUpper(c) ==> d as int == c as int + 32
    ensures !IsUpper(c) ==> d == c
  {
    if IsUpper(c) then (c as int + 32) as char else c
  }

  /** `str.lower()`: every letter lower-cased, length kept, no capital left. */
  function Lower(s: string): (r: string)
    ensures |r| == |s|
    ensures forall i :: 0 <= i < |s| ==> r[i] == LowerChar(s[i])
    ensures forall i :: 0 <= i < |r| ==> !IsUpper(r[i])
  {
    seq(|s|, i requires 0 <= i < |s| => LowerChar(s[i]))
  }

  /** A text is its own lower-case form exactly when it holds no capital. */
  lemma LowerFixesLowerCase(s: string)
    ensures Lower(s) == s <==> forall i :: 0 <= i < |s| ==> !IsUpper(s[i])
  {
    if forall i :: 0 <= i < |s| ==> !IsUpper(s[i]) {
      forall i | 0 <= i < |s| ensures Lower(s)[i] == s[i] {
        assert !IsUpper(s[i]);
      }
    }
  }

  /** Lower-casing twice is lower-casing once. */
  lemma LowerIdempotent(s: string)
    ensures Lower(Lower(s)) == Lower(s)
  {
    LowerFixesLowerCase(Lower(s));
  }

  /** The lines of `parts` joined with `sep` between consecutive ones (Python's `sep.join`). */
  function Join(parts: seq<string>, sep: char): string
    requires |parts| > 0
    decreases |parts|
  {
    if |parts| == 1 then parts[0] else parts[0] + [sep] + Join(parts[1..], sep)
  }

  /** Python's `s.split(sep)` for a one-character separator: always at least one piece. */
  function Split(s: string, sep: char): (parts: seq<string>)
    ensures |parts| >= 1
    ensures forall i :: 0 <= i < |parts| ==> sep !in parts[i]
    decreases |s|
  {
    if |s| == 0 then [""]
    else
      var rest := Split(s[1..], sep);
      if s[0] == sep then [""] + rest
      else [[s[0]] + rest[0]] + rest[1..]
  }

  /** A text free of `sep` splits into itself alone. */
  lemma {:induction false} SplitWithoutSep(x: string, sep: char)
    requires sep !in x
    ensures Split(x, sep) == [x]
    decreases |x|
  {
    if |x| > 0 {
      SplitWithoutSep(x[1..], sep);
      assert [x[0]] + x[1..] == x;
    }
  }

  /** Splitting stops at the first separator. */
  lemma {:induction false} SplitAtFirst(x: string, sep: char, y: string)
    requires sep !in x
    ensures Split(x + [sep] + y, sep) == [x] + Split(y, sep)
    decreases |x|
  {
    var s := x + [sep] + y;
    if |x| == 0 {
      assert s[1..] == y;
    } else {
      assert s[1..] == x[1..] + [sep] + y;
      SplitAtFirst(x[1..], sep, y);
      assert [x[0]] + x[1..] == x;
    }
  }

  /** Splitting a join gives back the pieces, as long as no piece holds the separator. */
  lemma {:induction false} SplitJoin(parts: seq<string>, sep: char)
    requires |parts| > 0
    requires forall i :: 0 <= i < |parts| ==> sep !in parts[i]
    ensures Split(Join(parts, sep), sep) == parts
    decreases |parts|
  {
    if |parts| == 1 {
      SplitWithoutSep(parts[0], sep);
    } else {
      SplitJoin(parts[1..], sep);
      SplitAtFirst(parts[0], sep, Join(parts[1..], sep));
      assert [parts[0]] + parts[1..] == parts;
    }
  }
}

=== FILE: wrappers.dfy ===
/** Failure-carrying result types shared by the shop model. */
module Wrappers {

  /** A value that may be missing, as a Python `dict.get` without a default. */
  datatype Option<+T> = None | Some(value: T) {

    /** The carried value, or `default` when there is none (Python's `dict.get(k, default)`). */
    function GetOr(default: T): T
    {
      match this
      case Some(x) => x
      case None => default
    }
  }

  /** Either the value an operation produced or the reason it refused to act. */
  datatype Result<+R, +E> = Success(value: R) | Failure(error: E)
}
